=== FILE: README.md ===
# Chapter navigation over a PDF outline — a Dafny model

The application lets a reader browse a PDF chapter by chapter. Two small pieces of
logic carry that behaviour, and this project models both as pure functions and
proves what they promise.

1. **Table of contents** (`components/TableOfContents.tsx`)
   - It resolves each top-level outline item's destination to a 1-based page number (`getPageNumber`).
   - It stores the processed outline when a document loads (`onDocumentLoadSuccess`).
   - On a click, it turns an entry into the chapter's `{ start, end }` page range (`handleItemClick`).
2. **Viewer pagination** (`components/PDFViewer.tsx`)
   - This is a state machine over `(pageNumber, numPages, pageRange)`.
   - A range change jumps to the range's start, document load records the page count, and the back and forward steps are clamped.
   - The `canGoPrev`/`canGoNext` flags enable the buttons.

The destination shapes follow section 12.3.2 of ISO 32000-1 (PDF 1.7), "Destinations".
A named destination is a string looked up in the document. An explicit destination is an
array whose first element refers to a page.

Files, one module each:

- `wrappers.dfy`: `Wrappers`, the `Option` type.
- `ranges.dfy`: `Ranges`, the `{ start, end }` page range.
- `destinations.dfy`: `Destinations`, the destination shapes, the engine's two lookups and `Resolve`.
- `outline.dfy`: `Outline`, outline items, the processed outline and document load.
- `chapter_ranges.dfy`: `ChapterRanges`, the click handler and the partition theorem.
- `viewer.dfy`: `Viewer`, the pagination state machine.
- `selection.dfy`: `Selection`, picking a chapter and paging through it, plus worked examples.

How the model maps the code:

- **PDF engine.** `getDestination` and `getPageIndex` are the two function fields of `Destinations.Engine`. Each returns an `Option`. From `getDestination`, `None` stands for a rejected promise or a `null` answer, because indexing `null` throws. From `getPageIndex`, `None` stands for a rejected promise only.
- **Array access past the end.** JavaScript's `arr[0]` on an empty array is `undefined`. The model handles this with `Value.Undefined`, which is handed to the engine unchanged.
- **Promise.all.** It is modelled as a sequential, order-preserving map that yields nothing when any element fails (`Outline.ResolveAll`).
- **Truthiness.** JavaScript truthiness of a page number is `!= 0` (`ChapterRanges.Truthy`).
- **Chapter clicks.** A click on the i-th button of the rendered list is `ChapterRanges.Chapter(s, i)`, which applies `ChapterRanges.ItemClick` to the i-th stored entry.
- **Button flags.** The `canGoNext` and `canGoPrev` expressions are `Viewer.CanGoNext` and `Viewer.CanGoPrev`.
- **Displayed total.** The "of m" total in "Page n of m" is `Viewer.DisplayedTotal`.
- **Range changes.** React's effect on `[pageRange]` is `Viewer.RangeChanged`. Every chapter click passes a fresh range object, so the effect runs on every selection, including a repeated one.

## Model

| member | source | states |
|---|---|---|
| `Destinations.Resolve` | pdf-interactive-system/components/TableOfContents.tsx:47-61 | a destination of neither string nor array shape gives page 1; every other resolved page is one more than some index the engine reported; if the engine never reports a negative index, every resolved page is at least 1 |
| `Destinations.NamedResolvesAsItsTarget` | pdf-interactive-system/components/TableOfContents.tsx:48-53 | a named destination resolves exactly as the explicit destination it is looked up to, and fails when the lookup fails |
| `Destinations.OnlyFirstElementConsulted` | pdf-interactive-system/components/TableOfContents.tsx:54-58 | two explicit destinations with the same first element resolve to the same page, whatever view parameters follow |
| `Destinations.ExplicitIsIndexPlusOne` | pdf-interactive-system/components/TableOfContents.tsx:54-58 | an explicit destination resolves exactly when the engine's page-index lookup of its first element succeeds, and then to that zero-based index plus one |
| `Destinations.UnsupportedIgnoresEngine` | pdf-interactive-system/components/TableOfContents.tsx:60 | the fallback page 1 never fails and does not depend on the engine |
| `Outline.Initial` | pdf-interactive-system/components/TableOfContents.tsx:29-30 | before any load the outline is empty and the page count is 0 |
| `Outline.Attach` | pdf-interactive-system/components/TableOfContents.tsx:40 | a processed item keeps the item's title, destination and nested items and carries the resolved page |
| `Outline.ResolveAll` | pdf-interactive-system/components/TableOfContents.tsx:37-42 | succeeds if and only if every top-level destination resolves; on success yields one processed item per outline item, in outline order, each carrying its own resolution |
| `Outline.LoadDocument` | pdf-interactive-system/components/TableOfContents.tsx:32-45 | the page count is always stored; a null outline or any failed resolution leaves the stored outline unchanged; otherwise the stored outline has one entry per top-level item, which is that item (title, destination, nested items) with its resolved page attached |
| `Outline.NoFlattening` | pdf-interactive-system/components/TableOfContents.tsx:38-41 | nested items are not flattened in: the processed outline is exactly as long as the top-level list and keeps each item's children |
| `Outline.ResolveAllAppend` | pdf-interactive-system/components/TableOfContents.tsx:37-42 | processing `a + b` succeeds exactly when processing `a` and `b` both succeed, and then yields the two processed halves concatenated (order preservation, all-or-nothing) |
| `Outline.AllResolveAppend` | pdf-interactive-system/components/TableOfContents.tsx:37-42 | every item of `a + b` resolves if and only if every item of `a` and every item of `b` does |
| `Outline.EmptyOutlineCases` | pdf-interactive-system/components/TableOfContents.tsx:29-44 | from the initial state, a document with no outline leaves the chapter list empty without error, and one with an unresolvable top-level destination also leaves it empty; in both cases the page count is still recorded |
| `Outline.LoadedPagesPositive` | pdf-interactive-system/components/TableOfContents.tsx:37-43 | when engine indices are non-negative, every entry of a stored processed outline has page at least 1 |
| `ChapterRanges.ItemClick` | pdf-interactive-system/components/TableOfContents.tsx:63-77 | no range exactly when the entry's page is falsy; otherwise the range starts at the entry's page and ends one page before the next entry's page when that exists and is truthy, else at the page count |
| `ChapterRanges.Contiguous` | pdf-interactive-system/components/TableOfContents.tsx:66-73 | neighbouring entries with truthy pages give abutting ranges: range i ends one page before range i+1 starts |
| `ChapterRanges.LastEndsAtNumPages` | pdf-interactive-system/components/TableOfContents.tsx:68-74 | the last entry's range ends at the document's page count |
| `ChapterRanges.InvertedExactlyWhenNotIncreasing` | pdf-interactive-system/components/TableOfContents.tsx:69-73 | a range is non-empty if and only if the next entry starts strictly later; a duplicate or earlier next page gives `end = next - 1 < start`, with no clamping |
| `ChapterRanges.Partition` | pdf-interactive-system/components/TableOfContents.tsx:66-76 | for positive, strictly increasing pages with the last within the page count, every range is non-empty; every page from the first entry's page to the page count lies in some range, and in exactly one; and every page of every range lies in that interval |
| `ChapterRanges.CoveredUpTo` | pdf-interactive-system/components/TableOfContents.tsx:66-74 | every page from the first entry's page to the end of chapter k lies in one of chapters 0..k |
| `ChapterRanges.Disjoint` | pdf-interactive-system/components/TableOfContents.tsx:69-73 | for well-ordered pages no page lies in two different chapters |
| `Viewer.Mount` | pdf-interactive-system/components/PDFViewer.tsx:25-26 | the viewer starts on page 1 with page count 0 |
| `Viewer.RangeChanged` | pdf-interactive-system/components/PDFViewer.tsx:29-36 | a new range jumps to its start, and clearing the range jumps to page 1; the result is in bounds exactly when the range is non-empty (with a range) or the document has a page (without one) |
| `Viewer.DocumentLoaded` | pdf-interactive-system/components/PDFViewer.tsx:38-40 | document load sets the page count only; page and range are untouched, and with a range the in-bounds status is unchanged |
| `Viewer.Next` | pdf-interactive-system/components/PDFViewer.tsx:50-56 | never goes past the upper bound (range end, else page count); preserves bounds; is a no-op at the upper bound; from any page below the bound it advances by exactly one and from any page at or above it lands on the bound, so it computes `min(page + 1, bound)` on every state; changes nothing but the page |
| `Viewer.Prev` | pdf-interactive-system/components/PDFViewer.tsx:42-48 | never goes below the lower bound (range start, else 1); preserves bounds; is a no-op at the lower bound; from any page above the bound it goes back by exactly one and from any page at or below it lands on the bound, so it computes `max(page - 1, bound)` on every state; changes nothing but the page |
| `Viewer.FlagsMatchSteps` | pdf-interactive-system/components/PDFViewer.tsx:42-61 | for an in-bounds page, `canGoNext` holds if and only if a forward step changes the page, and `canGoPrev` if and only if a back step does |
| `Viewer.StepsUndoEachOther` | pdf-interactive-system/components/PDFViewer.tsx:42-56 | an enabled forward step is undone by a back step, and an enabled back step by a forward step |
| `Viewer.InvertedRangeFreezes` | pdf-interactive-system/components/PDFViewer.tsx:29-61 | with an inverted range the viewer sits on `start` with both buttons disabled, and a forward step would fall to `end < start` |
| `Viewer.NextNClamps` | pdf-interactive-system/components/PDFViewer.tsx:50-56 | from an in-bounds page, k forward steps reach `min(page + k, upper bound)` and change nothing else |
| `Viewer.PrevNClamps` | pdf-interactive-system/components/PDFViewer.tsx:42-48 | from an in-bounds page, k back steps reach `max(page - k, lower bound)` and change nothing else |
| `Viewer.NextStopsAtDisplayedTotal` | pdf-interactive-system/components/PDFViewer.tsx:50-76 | the total shown in "Page n of m" is where forward steps stop: enough of them land exactly on it, and the forward button is then disabled |
| `Selection.SelectChapter` | pdf-interactive-system/app/page.tsx:45-62 | selecting an entry of a well-ordered outline opens the viewer on that entry's page, in bounds, and forward steps walk to the chapter's last page and stop there |
| `Selection.BookScenario` | pdf-interactive-system/components/TableOfContents.tsx:32-76 | loading a 100-page book whose outline points (explicitly, by name, explicitly) at page indices 0, 20 and 60 stores entries on pages 1, 21 and 61; the chapters are 1-20, 21-60 and 61-100; selecting the second opens page 21, 39 forward steps reach 60 and a 40th stays on 60 |
| `Selection.BackStepsStopAtStart` | pdf-interactive-system/components/PDFViewer.tsx:42-48 | after selecting pages 10-15, three back steps leave the viewer on page 10 |

## Behaviours of the code worth noting

- **Failed resolutions.** One failed destination resolution rejects the whole `Promise.all`, so no outline is stored at all. No entry is marked as unresolved on its own (`Outline.LoadDocument`, `Outline.EmptyOutlineCases`).
- **Duplicate or out-of-order bookmarks.** The end of a range is `next - 1` with no clamping, so such a bookmark yields an inverted range (`ChapterRanges.InvertedExactlyWhenNotIncreasing`).
- **Clearing the range.** Clearing the range resets the page to 1, whatever the current page was (`Viewer.RangeChanged`).
- **Document load.** Loading a document only records the page count; the page and range are untouched (`Viewer.DocumentLoaded`).
- **Stale resolutions.** Resolutions still running when a new document arrives are not cancelled, and the model adds no cancellation.
- **Unsupported destinations.** A destination that is neither a string nor an array, including a missing one, resolves to page 1 rather than failing (`Destinations.Resolve`).

## Left out

- PDF decoding and rendering (`Document`, `Page`, worker configuration): these are foreign library calls. Only `getDestination` and `getPageIndex` remain, as the parameters of `Destinations.Engine`.
- Asynchrony: promise scheduling and completion order are not modelled. `Promise.all` is an order-preserving all-or-nothing map.
- The zoom `scale` is not modelled. It is floating-point stepping within [0.5, 2.0] and has no bearing on pagination.
- React lifecycle: remounting the viewer on a tab switch, and re-renders, are framework behaviour. `Viewer.Mount` gives the initial state, and `Viewer.RangeChanged` is applied whenever a new range arrives.
- Tab selection, the upload component's drag-and-drop and MIME-type filter, and build configuration are left out. They are UI glue with no logic beyond assignment.
- A failed destination resolution, or a rejected `getOutline`, makes `onDocumentLoadSuccess` reject, and nothing handles that rejection. The model is a pure state update and does not represent the unhandled rejection; it only states that the stored outline is unchanged.
- Non-number answers from `getPageIndex` are not modelled. The engine answers with a number or rejects; a `null` answer would give page 1 and an `undefined` one `NaN`.
- JavaScript numbers are doubles. The model uses unbounded integers, which agree with them for every page count a PDF can have. `NaN` is not modelled.
- The rendered list and its "p. n" labels are not modelled.

=== FILE: chapter_ranges.dfy ===
/** The page range of a chapter, computed when an entry of the table of
    contents is clicked (`handleItemClick` in components/TableOfContents.tsx).

    A chapter starts at its own page and ends one page before the next
    top-level entry starts, or at the last page of the document when there
    is no next entry (or the next entry's page is falsy). The end is never
    clamped: out-of-order or duplicate bookmarks give an inverted range. */
module ChapterRanges {
  import opened Wrappers
  import opened Ranges
  import opened Outline

  /** JavaScript truthiness of a page number (`NaN` does not arise here). */
  predicate Truthy(page: int) {
    page != 0
  }

  /** `handleItemClick(item, index)`: the range handed to `onChapterSelect`,
      or `None` when the click returns early without selecting anything. */
  function ItemClick(s: TocState, item: TocItem, index: nat): (r: Option<PageRange>)
    ensures r.None? <==> !Truthy(item.pageNumber)
    ensures r.Some? ==> r.value.start == item.pageNumber
    ensures r.Some? && index + 1 < |s.outline| && Truthy(s.outline[index + 1].pageNumber) ==>
      r.value.end + 1 == s.outline[index + 1].pageNumber
    ensures r.Some? && (index + 1 >= |s.outline| || !Truthy(s.outline[index + 1].pageNumber)) ==>
      r.value.end == s.numPages
  {
    if !Truthy(item.pageNumber) then None
    else
      var start := item.pageNumber;
      var end :=
        if index + 1 < |s.outline| && Truthy(s.outline[index + 1].pageNumber)
        then s.outline[index + 1].pageNumber - 1
        else s.numPages;
      Some(PageRange(start, end))
  }

  /** The range selected by clicking the `i`-th button of the rendered list. */
  function Chapter(s: TocState, i: nat): Option<PageRange>
    requires i < |s.outline|
  {
    ItemClick(s, s.outline[i], i)
  }

  /** Two neighbouring entries with truthy pages give abutting ranges: the
      first ends exactly one page before the second starts. */
  lemma Contiguous(s: TocState, i: nat)
    requires i + 1 < |s.outline|
    requires Truthy(s.outline[i].pageNumber) && Truthy(s.outline[i + 1].pageNumber)
    ensures Chapter(s, i).Some? && Chapter(s, i + 1).Some?
    ensures Chapter(s, i).value.end + 1 == Chapter(s, i + 1).value.start
  {
  }

  /** The last entry's range always ends at the document's page count. */
  lemma LastEndsAtNumPages(s: TocState)
    requires |s.outline| > 0 && Truthy(s.outline[|s.outline| - 1].pageNumber)
    ensures Chapter(s, |s.outline| - 1).Some?
    ensures Chapter(s, |s.outline| - 1).value.end == s.numPages
  {
  }

  /** No clamping: a range is non-empty exactly when the next entry starts
      strictly later, so a duplicate or out-of-order bookmark yields
      `end == next - 1 < start`. */
  lemma InvertedExactlyWhenNotIncreasing(s: TocState, i: nat)
    requires i + 1 < |s.outline|
    requires Truthy(s.outline[i].pageNumber) && Truthy(s.outline[i + 1].pageNumber)
    ensures Chapter(s, i).Some?
    ensures NonEmpty(Chapter(s, i).value) <==> s.outline[i].pageNumber < s.outline[i + 1].pageNumber
    ensures s.outline[i + 1].pageNumber <= s.outline[i].pageNumber ==>
      Chapter(s, i).value.end == s.outline[i + 1].pageNumber - 1 < Chapter(s, i).value.start
  {
  }

  /** A table of contents whose pages are positive, strictly increasing and
      within the document. */
  ghost predicate WellOrdered(s: TocState) {
    && |s.outline| > 0
    && (forall i :: 0 <= i < |s.outline| ==> s.outline[i].pageNumber >= 1)
    && (forall i, j :: 0 <= i < j < |s.outline| ==> s.outline[i].pageNumber < s.outline[j].pageNumber)
    && s.outline[|s.outline| - 1].pageNumber <= s.numPages
  }

  /** Page `q` lies in the range of entry `i`. */
  ghost predicate InChapter(s: TocState, i: nat, q: int)
    requires i < |s.outline|
  {
    Chapter(s, i).Some? && Contains(Chapter(s, i).value, q)
  }

  /** Page `q` lies in the range of some entry. */
  ghost predicate Covered(s: TocState, q: int) {
    exists i :: 0 <= i < |s.outline| && InChapter(s, i, q)
  }

  /** Every page from the first entry's page up to the end of chapter `k`
      falls in one of the chapters `0..k`. */
  lemma {:induction false} CoveredUpTo(s: TocState, k: nat, q: int)
    requires WellOrdered(s)
    requires k < |s.outline|
    requires s.outline[0].pageNumber <= q
    requires Chapter(s, k).Some? && q <= Chapter(s, k).value.end
    ensures exists i :: 0 <= i <= k && InChapter(s, i, q)
  {
    if q >= s.outline[k].pageNumber {
      assert InChapter(s, k, q);
    } else {
      assert k > 0;
      assert Chapter(s, k - 1).value.end == s.outline[k].pageNumber - 1;
      CoveredUpTo(s, k - 1, q);
    }
  }

  /** For a well-ordered table of contents the chapter ranges partition the
      pages from the first entry's page to the page count: each range is
      non-empty, every such page lies in some range, and in only one. */
  lemma Partition(s: TocState)
    requires WellOrdered(s)
    ensures forall i :: 0 <= i < |s.outline| ==> Chapter(s, i).Some? && NonEmpty(Chapter(s, i).value)
    ensures forall q :: s.outline[0].pageNumber <= q <= s.numPages ==> Covered(s, q)
    ensures forall q, i, j :: 0 <= i < |s.outline| && 0 <= j < |s.outline| && InChapter(s, i, q) && InChapter(s, j, q) ==> i == j
    ensures forall q, i :: 0 <= i < |s.outline| && InChapter(s, i, q) ==> s.outline[0].pageNumber <= q <= s.numPages
  {
    var n := |s.outline|;
    forall i | 0 <= i < n
      ensures Chapter(s, i).Some? && NonEmpty(Chapter(s, i).value)
    {
      if i + 1 < n {
        assert s.outline[i].pageNumber < s.outline[i + 1].pageNumber;
      } else {
        assert i == n - 1;
      }
    }
    forall q | s.outline[0].pageNumber <= q <= s.numPages
      ensures Covered(s, q)
    {
      CoveredUpTo(s, n - 1, q);
    }
    forall q, i, j | 0 <= i < n && 0 <= j < n && InChapter(s, i, q) && InChapter(s, j, q)
      ensures i == j
    {
      if i < j {
        Disjoint(s, i, j, q);
      } else if j < i {
        Disjoint(s, j, i, q);
      }
    }
  }

  /** An earlier chapter ends before any later one starts. */
  lemma Disjoint(s: TocState, i: nat, j: nat, q: int)
    requires WellOrdered(s)
    requires i < j < |s.outline|
    ensures !(InChapter(s, i, q) && InChapter(s, j, q))
  {
  }

}

=== FILE: destinations.dfy ===
/** Resolution of an outline destination to a 1-based page number, as
    `getPageNumber` in components/TableOfContents.tsx does it.

    The destination shapes follow section 12.3.2 of ISO 32000-1 (PDF 1.7),
    "Destinations": a named destination is a string looked up in the
    document's name table; an explicit destination is an array whose first
    element refers to a page object and whose remaining elements are view
    parameters (`/XYZ left top zoom`, `/Fit`, ...). */
module Destinations {
  import opened Wrappers

  /** An element of a destination array, as the PDF engine hands it over. */
  datatype Value =
    | Ref(num: nat, gen: nat)   // indirect object reference `num gen R`
    | Name(name: string)        // e.g. the view kind `/XYZ`
    | Number(n: int)
    | Null
    | Undefined                 // what JavaScript reads past the end of an array

  /** An outline item's `dest`: a string, an array, or anything else (null,
      a missing field). */
  datatype Destination =
    | Named(name: string)
    | Explicit(elements: seq<Value>)
    | Unsupported

  /** The two engine lookups the resolution uses. From `getDestination`,
      `None` stands for a rejected promise or a null answer (indexing null
      throws); from `getPageIndex`, it stands for a rejected promise only,
      since the engine answers a page index with a number or rejects. */
  datatype Engine = Engine(
    getDestination: string -> Option<seq<Value>>,
    getPageIndex: Value -> Option<int>)

  /** `arr[0]` in JavaScript: `undefined` on an empty array. */
  function First(arr: seq<Value>): Value {
    if |arr| > 0 then arr[0] else Undefined
  }

  /** The engine reports zero-based page indices that are never negative. */
  ghost predicate IndicesNonNegative(e: Engine) {
    forall v :: e.getPageIndex(v).Some? ==> e.getPageIndex(v).value >= 0
  }

  /** A zero-based page index from the engine, turned into a page number. */
  function PageOfIndex(index: Option<int>): Option<int> {
    match index
    case None => None
    case Some(i) => Some(i + 1)
  }

  /** `getPageNumber(pdf, dest)`: `None` when an engine call rejects (or the
      named lookup answers null, so that `destArray[0]` throws). */
  function Resolve(e: Engine, d: Destination): (r: Option<int>)
    ensures d.Unsupported? ==> r == Some(1)
    ensures r.Some? && !d.Unsupported? ==> exists v :: e.getPageIndex(v) == Some(r.value - 1)
    ensures r.Some? && IndicesNonNegative(e) ==> r.value >= 1
  {
    match d
    case Named(name) =>
      (match e.getDestination(name)
       case None => None
       case Some(arr) => PageOfIndex(e.getPageIndex(First(arr))))
    case Explicit(arr) => PageOfIndex(e.getPageIndex(First(arr)))
    case Unsupported => Some(1)
  }

  /** A named destination resolves exactly as the explicit destination it
      names, and fails when the name table has no entry for it. */
  lemma NamedResolvesAsItsTarget(e: Engine, name: string)
    ensures e.getDestination(name).None? ==> Resolve(e, Named(name)).None?
    ensures e.getDestination(name).Some? ==>
      Resolve(e, Named(name)) == Resolve(e, Explicit(e.getDestination(name).value))
  {
  }

  /** Only the first element of an explicit destination decides the page:
      two arrays with the same first element resolve alike, whatever view
      parameters follow. */
  lemma OnlyFirstElementConsulted(e: Engine, a: seq<Value>, b: seq<Value>)
    requires |a| > 0 && |b| > 0 && a[0] == b[0]
    ensures Resolve(e, Explicit(a)) == Resolve(e, Explicit(b))
  {
  }

  /** The resolved page is the engine's zero-based index shifted by one, in
      both directions: it fails exactly when the engine call fails. */
  lemma ExplicitIsIndexPlusOne(e: Engine, arr: seq<Value>)
    ensures Resolve(e, Explicit(arr)).Some? <==> e.getPageIndex(First(arr)).Some?
    ensures Resolve(e, Explicit(arr)).Some? ==>
      Resolve(e, Explicit(arr)).value - 1 == e.getPageIndex(First(arr)).value
  {
  }

  /** A destination of an unsupported shape never fails and never consults
      the engine: any two engines agree on it. */
  lemma UnsupportedIgnoresEngine(e1: Engine, e2: Engine)
    ensures Resolve(e1, Unsupported) == Resolve(e2, Unsupported) == Some(1)
  {
  }

}

=== FILE: outline.dfy ===
/** Processing of the document outline when the table of contents loads a
    document (`onDocumentLoadSuccess` in components/TableOfContents.tsx).

    Only the top-level outline items are processed. Each keeps its title,
    destination and nested items and gains a resolved `pageNumber`. The
    resolutions run under `Promise.all`, so one rejection discards the whole
    batch and the stored outline is left as it was. */
module Outline {
  import opened Wrappers
  import opened Destinations

  /** An outline item as the engine reports it. */
  datatype OutlineItem = OutlineItem(title: string, dest: Destination, items: seq<OutlineItem>)

  /** A top-level outline item with its resolved page number attached. Its
      nested `items` are carried along unresolved. */
  datatype TocItem = TocItem(title: string, dest: Destination, items: seq<OutlineItem>, pageNumber: int)

  /** The table of contents' state: the processed outline and the page
      count of the loaded document. */
  datatype TocState = TocState(outline: seq<TocItem>, numPages: int)

  /** What the engine knows about a loaded document. */
  datatype Document = Document(engine: Engine, numPages: int, outline: Option<seq<OutlineItem>>)

  /** The state before any document has loaded. */
  function Initial(): (s: TocState)
    ensures |s.outline| == 0 && s.numPages == 0
  {
    TocState([], 0)
  }

  /** The outline item with its resolved page attached. */
  function Attach(item: OutlineItem, page: int): (t: TocItem)
    ensures t.title == item.title && t.dest == item.dest && t.items == item.items
    ensures t.pageNumber == page
  {
    TocItem(item.title, item.dest, item.items, page)
  }

  /** Every item of `items` resolves. */
  ghost predicate AllResolve(e: Engine, items: seq<OutlineItem>) {
    forall i :: 0 <= i < |items| ==> Resolve(e, items[i].dest).Some?
  }

  /** `Promise.all(outline.map(...))`: one processed item per outline item,
      in outline order, or nothing at all when any resolution fails. */
  function ResolveAll(e: Engine, items: seq<OutlineItem>): (r: Option<seq<TocItem>>)
    ensures r.Some? <==> AllResolve(e, items)
    ensures r.Some? ==> |r.value| == |items|
    ensures r.Some? ==> forall i :: 0 <= i < |items| ==>
      r.value[i] == Attach(items[i], Resolve(e, items[i].dest).value)
  {
    if |items| == 0 then Some([])
    else
      match Resolve(e, items[0].dest)
      case None => None
      case Some(page) =>
        match ResolveAll(e, items[1..])
        case None => None
        case Some(rest) => Some([Attach(items[0], page)] + rest)
  }

  /** `onDocumentLoadSuccess(pdf)`: the page count is always stored; the
      outline is replaced only when the document has one and every
      top-level destination resolves. */
  function LoadDocument(s: TocState, doc: Document): (r: TocState)
    ensures r.numPages == doc.numPages
    ensures doc.outline.None? ==> r.outline == s.outline
    ensures doc.outline.Some? && !AllResolve(doc.engine, doc.outline.value) ==> r.outline == s.outline
    ensures doc.outline.Some? && AllResolve(doc.engine, doc.outline.value) ==>
      && |r.outline| == |doc.outline.value|
      && forall i :: 0 <= i < |r.outline| ==>
           r.outline[i] == Attach(doc.outline.value[i], Resolve(doc.engine, doc.outline.value[i].dest).value)
  {
    var s1 := s.(numPages := doc.numPages);
    match doc.outline
    case None => s1
    case Some(items) =>
      match ResolveAll(doc.engine, items)
      case None => s1
      case Some(processed) => s1.(outline := processed)
  }

  /** Nested outline items are never flattened in: the processed outline is
      exactly as long as the top-level list, however deep the tree. */
  lemma NoFlattening(e: Engine, items: seq<OutlineItem>)
    requires AllResolve(e, items)
    ensures ResolveAll(e, items).Some?
    ensures |ResolveAll(e, items).value| == |items|
    ensures forall i :: 0 <= i < |items| ==> ResolveAll(e, items).value[i].items == items[i].items
  {
  }

  /** Processing is order-preserving and composes over concatenation: the
      outline `a + b` succeeds exactly when both halves do, and then yields
      the two processed halves in order. */
  lemma ResolveAllAppend(e: Engine, a: seq<OutlineItem>, b: seq<OutlineItem>)
    ensures ResolveAll(e, a + b).Some? <==> ResolveAll(e, a).Some? && ResolveAll(e, b).Some?
    ensures ResolveAll(e, a + b).Some? ==>
      ResolveAll(e, a + b).value == ResolveAll(e, a).value + ResolveAll(e, b).value
  {
    AllResolveAppend(e, a, b);
    if AllResolve(e, a + b) {
      var r, ra, rb := ResolveAll(e, a + b).value, ResolveAll(e, a).value, ResolveAll(e, b).value;
      forall i | 0 <= i < |r|
        ensures r[i] == (ra + rb)[i]
      {
        if i >= |a| {
          assert (a + b)[i] == b[i - |a|];
        } else {
          assert (a + b)[i] == a[i];
        }
      }
      assert r == ra + rb;
    }
  }

  /** Every item of `a + b` resolves exactly when every item of `a` and
      every item of `b` does. */
  lemma AllResolveAppend(e: Engine, a: seq<OutlineItem>, b: seq<OutlineItem>)
    ensures AllResolve(e, a + b) <==> AllResolve(e, a) && AllResolve(e, b)
  {
    if AllResolve(e, a + b) {
      forall i | 0 <= i < |a|
        ensures Resolve(e, a[i].dest).Some?
      {
        assert (a + b)[i] == a[i];
      }
      forall i | 0 <= i < |b|
        ensures Resolve(e, b[i].dest).Some?
      {
        assert (a + b)[|a| + i] == b[i];
      }
    }
    if AllResolve(e, a) && AllResolve(e, b) {
      forall i | 0 <= i < |a + b|
        ensures Resolve(e, (a + b)[i].dest).Some?
      {
        if i >= |a| {
          assert (a + b)[i] == b[i - |a|];
        } else {
          assert (a + b)[i] == a[i];
        }
      }
    }
  }

  /** From the initial state, a document without an outline, or one with a
      single unresolvable top-level destination, leaves the chapter list
      empty. */
  lemma EmptyOutlineCases(doc: Document)
    requires doc.outline.None? || exists i :: 0 <= i < |doc.outline.value| && Resolve(doc.engine, doc.outline.value[i].dest).None?
    ensures |LoadDocument(Initial(), doc).outline| == 0
    ensures LoadDocument(Initial(), doc).numPages == doc.numPages
  {
  }

  /** When the engine never reports a negative page index, every entry of a
      successfully processed outline has a page number of at least 1. */
  lemma LoadedPagesPositive(s: TocState, doc: Document)
    requires IndicesNonNegative(doc.engine)
    requires doc.outline.Some? && AllResolve(doc.engine, doc.outline.value)
    ensures forall i :: 0 <= i < |LoadDocument(s, doc).outline| ==> LoadDocument(s, doc).outline[i].pageNumber >= 1
  {
  }

}

=== FILE: ranges.dfy ===
/** The `{ start, end }` page range that the table of contents hands to the
    viewer when a chapter is picked. Both bounds are 1-based and inclusive;
    nothing forces `start <= end`. */
module Ranges {

  datatype PageRange = PageRange(start: int, end: int)

  /** True when the range holds at least one page. */
  predicate NonEmpty(r: PageRange) {
    r.start <= r.end
  }

  /** True when page `p` lies inside the range. */
  predicate Contains(r: PageRange, p: int) {
    r.start <= p <= r.end
  }

}

=== FILE: selection.dfy ===
/** Picking a chapter in the table of contents and paging through it in the
    viewer: the range from `handleItemClick` becomes the viewer's
    `pageRange` (app/page.tsx passes it through unchanged). */
module Selection {
  import opened Wrappers
  import opened Ranges
  import opened Destinations
  import opened Outline
  import opened ChapterRanges
  import opened Viewer

  /** Selecting entry `i` of a well-ordered table of contents opens the
      viewer on the entry's own page, in bounds, and forward steps walk to
      the page before the next entry (or the last page) and stop there. */
  lemma SelectChapter(toc: TocState, v: ViewerState, i: nat, k: nat)
    requires WellOrdered(toc) && i < |toc.outline|
    ensures Chapter(toc, i).Some?
    ensures RangeChanged(v, Chapter(toc, i)).pageNumber == toc.outline[i].pageNumber
    ensures InBounds(RangeChanged(v, Chapter(toc, i)))
    ensures NextN(RangeChanged(v, Chapter(toc, i)), k).pageNumber ==
      if toc.outline[i].pageNumber + k <= Chapter(toc, i).value.end
      then toc.outline[i].pageNumber + k
      else Chapter(toc, i).value.end
  {
    Partition(toc);
    NextNClamps(RangeChanged(v, Chapter(toc, i)), k);
  }

  /** An engine whose page objects are numbered from 0 (object `k 0 R` is
      page index `k`) and whose name table maps `chapter2` to page index 20. */
  function BookEngine(): Engine {
    Engine(
      (name: string) => if name == "chapter2" then Some([Ref(20, 0), Name("Fit")]) else None,
      (v: Value) => if v.Ref? then Some(v.num) else None)
  }

  /** A 100-page document whose three top-level outline items point at
      page indices 0, 20 (through a named destination) and 60. */
  function BookDocument(): Document {
    Document(BookEngine(), 100, Some([
      OutlineItem("Ch1", Explicit([Ref(0, 0), Name("XYZ"), Null, Null, Null]), []),
      OutlineItem("Ch2", Named("chapter2"), []),
      OutlineItem("Ch3", Explicit([Ref(60, 0), Name("Fit")]), [])]))
  }

  /** The table of contents after loading the book. */
  function Book(): TocState {
    LoadDocument(Initial(), BookDocument())
  }

  /** Loading the book stores entries on pages 1, 21 and 61, and the three
      chapters are pages 1-20, 21-60 and 61-100. Selecting the second opens
      page 21; 39 forward steps reach 60 and a 40th stays. */
  lemma BookScenario(v: ViewerState)
    ensures |Book().outline| == 3 && Book().numPages == 100
    ensures Book().outline[0].pageNumber == 1
    ensures Book().outline[1].pageNumber == 21
    ensures Book().outline[2].pageNumber == 61
    ensures Chapter(Book(), 0) == Some(PageRange(1, 20))
    ensures Chapter(Book(), 1) == Some(PageRange(21, 60))
    ensures Chapter(Book(), 2) == Some(PageRange(61, 100))
    ensures RangeChanged(v, Chapter(Book(), 1)).pageNumber == 21
    ensures NextN(RangeChanged(v, Chapter(Book(), 1)), 39).pageNumber == 60
    ensures NextN(RangeChanged(v, Chapter(Book(), 1)), 40).pageNumber == 60
  {
    var doc := BookDocument();
    var items := doc.outline.value;
    assert Resolve(doc.engine, items[0].dest) == Some(1);
    assert Resolve(doc.engine, items[1].dest) == Some(21);
    assert Resolve(doc.engine, items[2].dest) == Some(61);
    assert AllResolve(doc.engine, items);
    var t := RangeChanged(v, Chapter(Book(), 1));
    NextNClamps(t, 39);
    NextNClamps(t, 40);
  }

  /** Selecting pages 10-15 and stepping back three times stays on page 10. */
  lemma BackStepsStopAtStart(v: ViewerState)
    ensures PrevN(RangeChanged(v, Some(PageRange(10, 15))), 3).pageNumber == 10
  {
  }

}

=== FILE: viewer.dfy ===
/** The pagination state of the document viewer (components/PDFViewer.tsx):
    the current page, the document's page count and the optional chapter
    range that scopes navigation. */
module Viewer {
  import opened Wrappers
  import opened Ranges

  datatype ViewerState = ViewerState(pageNumber: int, numPages: int, pageRange: Option<PageRange>)

  /** The state right after mounting, before any effect has run. */
  function Mount(range: Option<PageRange>): (s: ViewerState)
    ensures s.pageNumber == 1 && s.numPages == 0 && s.pageRange == range
  {
    ViewerState(1, 0, range)
  }

  /** Lowest page navigation may reach. */
  function LowerBound(s: ViewerState): int {
    match s.pageRange
    case Some(r) => r.start
    case None => 1
  }

  /** Highest page navigation may reach. */
  function UpperBound(s: ViewerState): int {
    match s.pageRange
    case Some(r) => r.end
    case None => s.numPages
  }

  /** The current page lies within the navigation bounds. */
  predicate InBounds(s: ViewerState) {
    LowerBound(s) <= s.pageNumber <= UpperBound(s)
  }

  /** The effect on `[pageRange]`: a new range (or its removal) jumps to the
      range's first page, or to page 1 when there is no range. */
  function RangeChanged(s: ViewerState, range: Option<PageRange>): (t: ViewerState)
    ensures t.pageRange == range && t.numPages == s.numPages
    ensures t.pageNumber == LowerBound(t)
    ensures range.Some? ==> (InBounds(t) <==> NonEmpty(range.value))
    ensures range.None? ==> (InBounds(t) <==> s.numPages >= 1)
  {
    match range
    case Some(r) => s.(pageRange := range, pageNumber := r.start)
    case None => s.(pageRange := range, pageNumber := 1)
  }

  /** `onDocumentLoadSuccess`: records the page count and nothing else. */
  function DocumentLoaded(s: ViewerState, numPages: int): (t: ViewerState)
    ensures t.numPages == numPages
    ensures t.pageNumber == s.pageNumber && t.pageRange == s.pageRange
    ensures s.pageRange.Some? ==> (InBounds(t) <==> InBounds(s))
  {
    s.(numPages := numPages)
  }

  /** `goToNextPage`: one page forward, clamped to the upper bound. */
  function Next(s: ViewerState): (t: ViewerState)
    ensures t.numPages == s.numPages && t.pageRange == s.pageRange
    ensures t.pageNumber <= UpperBound(s)
    ensures InBounds(s) ==> InBounds(t)
    ensures s.pageNumber == UpperBound(s) ==> t == s
    ensures InBounds(s) && t.pageNumber != s.pageNumber ==> t.pageNumber == s.pageNumber + 1
    ensures s.pageNumber < UpperBound(s) ==> t.pageNumber == s.pageNumber + 1
    ensures s.pageNumber >= UpperBound(s) ==> t.pageNumber == UpperBound(s)
  {
    var bound := UpperBound(s);
    s.(pageNumber := if s.pageNumber + 1 < bound then s.pageNumber + 1 else bound)
  }

  /** `goToPrevPage`: one page back, clamped to the lower bound. */
  function Prev(s: ViewerState): (t: ViewerState)
    ensures t.numPages == s.numPages && t.pageRange == s.pageRange
    ensures t.pageNumber >= LowerBound(s)
    ensures InBounds(s) ==> InBounds(t)
    ensures s.pageNumber == LowerBound(s) ==> t == s
    ensures InBounds(s) && t.pageNumber != s.pageNumber ==> t.pageNumber == s.pageNumber - 1
    ensures s.pageNumber > LowerBound(s) ==> t.pageNumber == s.pageNumber - 1
    ensures s.pageNumber <= LowerBound(s) ==> t.pageNumber == LowerBound(s)
  {
    var bound := LowerBound(s);
    s.(pageNumber := if s.pageNumber - 1 > bound then s.pageNumber - 1 else bound)
  }

  /** `canGoNext`: whether the forward button is enabled. */
  predicate CanGoNext(s: ViewerState) {
    match s.pageRange
    case Some(r) => s.pageNumber < r.end
    case None => s.pageNumber < s.numPages
  }

  /** `canGoPrev`: whether the back button is enabled. */
  predicate CanGoPrev(s: ViewerState) {
    match s.pageRange
    case Some(r) => s.pageNumber > r.start
    case None => s.pageNumber > 1
  }

  /** The page total shown in "Page n of m". The viewer computes it apart
      from the bound that `goToNextPage` clamps to, though with the same
      choice between range end and page count; `NextStopsAtDisplayedTotal`
      ties the two together. */
  function DisplayedTotal(s: ViewerState): int {
    match s.pageRange
    case Some(r) => r.end
    case None => s.numPages
  }

  /** For an in-bounds page, each button is enabled exactly when pressing it
      would change the page. */
  lemma FlagsMatchSteps(s: ViewerState)
    requires InBounds(s)
    ensures CanGoNext(s) <==> Next(s).pageNumber != s.pageNumber
    ensures CanGoPrev(s) <==> Prev(s).pageNumber != s.pageNumber
  {
  }

  /** A step forward followed by a step back returns to the same state,
      and the other way round, whenever the first step was enabled. */
  lemma StepsUndoEachOther(s: ViewerState)
    requires InBounds(s)
    ensures CanGoNext(s) ==> Prev(Next(s)) == s
    ensures CanGoPrev(s) ==> Next(Prev(s)) == s
  {
  }

  /** An inverted range `start > end` leaves the viewer on `start` with both
      buttons disabled; a forward step would even drop below `start`. */
  lemma InvertedRangeFreezes(s: ViewerState, r: PageRange)
    requires r.start > r.end
    ensures RangeChanged(s, Some(r)).pageNumber == r.start
    ensures !CanGoNext(RangeChanged(s, Some(r))) && !CanGoPrev(RangeChanged(s, Some(r)))
    ensures Next(RangeChanged(s, Some(r))).pageNumber == r.end < r.start
  {
  }

  /** `k` presses of the forward button. */
  function NextN(s: ViewerState, k: nat): ViewerState
    decreases k
  {
    if k == 0 then s else NextN(Next(s), k - 1)
  }

  /** `k` presses of the back button. */
  function PrevN(s: ViewerState, k: nat): ViewerState
    decreases k
  {
    if k == 0 then s else PrevN(Prev(s), k - 1)
  }

  /** From an in-bounds page, `k` forward steps reach `min(page + k, upper)`
      and touch nothing but the page. */
  lemma {:induction false} NextNClamps(s: ViewerState, k: nat)
    requires InBounds(s)
    ensures NextN(s, k).pageNumber == if s.pageNumber + k < UpperBound(s) then s.pageNumber + k else UpperBound(s)
    ensures NextN(s, k).numPages == s.numPages && NextN(s, k).pageRange == s.pageRange
    decreases k
  {
    if k > 0 {
      NextNClamps(Next(s), k - 1);
    }
  }

  /** From an in-bounds page, `k` back steps reach `max(page - k, lower)`
      and touch nothing but the page. */
  lemma {:induction false} PrevNClamps(s: ViewerState, k: nat)
    requires InBounds(s)
    ensures PrevN(s, k).pageNumber == if s.pageNumber - k > LowerBound(s) then s.pageNumber - k else LowerBound(s)
    ensures PrevN(s, k).numPages == s.numPages && PrevN(s, k).pageRange == s.pageRange
    decreases k
  {
    if k > 0 {
      PrevNClamps(Prev(s), k - 1);
    }
  }

  /** The displayed total is the page the forward button stops at: from any
      in-bounds page, enough forward steps land exactly on it and stop. */
  lemma NextStopsAtDisplayedTotal(s: ViewerState, k: nat)
    requires InBounds(s)
    requires s.pageNumber + k >= DisplayedTotal(s)
    ensures NextN(s, k).pageNumber == DisplayedTotal(s)
    ensures !CanGoNext(NextN(s, k))
  {
    NextNClamps(s, k);
  }

}

=== FILE: wrappers.dfy ===
/** The optional value used for every lookup that can fail or be absent: a
    rejected engine promise, a null outline, a missing page range. */
module Wrappers {

  datatype Option<+T> = None | Some(value: T)

}
